=== FILE: README.md ===
# node-editor: a Dafny model of the graph core

This project models the core of a web-component node editor (`index.ts`). The editor
shows boxes ("editors") that carry named ports. Curved links join the ports. Everything
is addressed by name, and the view can be panned and zoomed. DOM elements become
abstract `nat` handles, and event dispatch becomes explicit transition functions.
The model covers five parts:

- **Name registries** (`Registry`, `NodeMap`). The graph's editor registry and every
  editor's port registry follow the same rules. The first registrant of a name wins.
  An unregister only removes a binding that still points at the leaving handle. A
  rename unregisters the old name and then registers the new one.
- **Links** (`Link`). A link resolves its `from`/`out`/`to`/`in` names against the
  registries. It has a two-state connected flag guarded against repeated requests.
  Its listeners are revoked on every refresh.
- **Connection bookkeeping** (`Bookkeeping`, `NodeMap`). Each port keeps the set of its
  connected links and a `connections` count attribute. The graph keeps an index from
  a link's out-port to its in-ports. Both are fed by the links' notifications.
- **Drag-to-connect** (`DragConnect`). This covers the candidate filter, the duplicate
  guard, the orientation of a new link and the snapping of the transient curve.
- **Viewport and curve arithmetic** (`Viewport`, `Curve`). These cover zoom clamping,
  the view/world maps, the wheel zoom around a fixed view position, and the tension of a link's
  cubic curve. Both are computed over exact reals.

`Scenario` follows one history through all of them: registration, a drag, resolution,
indexing, a refused repeat drag, and disconnection.

## Behaviour worth knowing

- A link listens for `name` on both endpoint ports and both endpoint editors, and each
  listener calls `refreshConnection(true)` (`index.ts:1091-1121`). That forces a
  disconnect and does not resolve again. The link stays unbound until another
  attribute or mount change refreshes it.
- `name` events bubble (`index.ts:301`). So renaming any port of an endpoint editor,
  not only an endpoint port, reaches the editor's listener and unbinds the link in
  the same way.
- When an endpoint port goes offline, the link removes its own element
  (`index.ts:1075-1081`). Its `disconnectedCallback` then forces a disconnect while the
  graph reference is still set (`index.ts:1202-1209`). `Scenario.OfflineDisconnects`
  follows that order.
- Refreshing a link that is already bound emits a disconnect and then a connect
  (`Link.RefreshTwice`). Only the resulting state is idempotent.
- The wheel handler pans by the event's `clientX`/`clientY` divided by the zoom
  (`index.ts:1294`, `1301`) without subtracting the surface's page offset, which the
  drag code does subtract (`index.ts:1541-1542`). The world point it keeps fixed is
  the one at view position (clientX, clientY), which is under the cursor only when
  the surface sits at the top-left of the viewport.
- `roundTo` uses `Math.ceil`, so coordinates and tension are rounded up to a whole
  number of tenths.
- The tension is capped at 300 only for inverted endpoints (`x2 < x1`). In the
  forward direction it grows without bound, as half the horizontal distance.
- Every name test is JavaScript truthiness, so an empty name counts as no name. This
  holds in the registries and in the `from`/`to`/`in`/`out` check at resolution.

## Model

| member | source | states |
|---|---|---|
| Registry.Add | index.ts:1645-1660 | registration never overwrites or drops an existing binding (first registrant wins); the only new key is the handle's own non-empty name, bound to it; the warning is printed exactly when the name stays bound to another handle |
| Registry.Remove | index.ts:1662-1672 | unregistration removes exactly the binding of the leaving handle's name to that handle, and nothing else |
| Registry.Rename | index.ts:1674-1697 | other keys keep their bindings; the old name is dropped if it was the renamed handle's and survives with its binding if another handle held it; a free new name (or one already the handle's) ends bound to the handle without a warning, while one held by another handle keeps that binding and warns |
| Registry.NameChanged | index.ts:843-847 | an attribute write that does not change the name leaves the registry alone; otherwise it is a rename |
| Registry.TruthfulIsInjective | index.ts:1645-1697 | in a registry whose bindings agree with the handles' current names, no handle is bound under two names |
| Registry.AddKeepsTruthful | index.ts:1645-1660 | registering a handle under its current name keeps every binding true to the handles' names |
| Registry.RemoveKeepsTruthful | index.ts:1662-1672 | unregistering a handle under its current name keeps the registry truthful and makes the handle unreachable by any name |
| Registry.RenameKeepsTruthful | index.ts:1674-1697 | a rename reported with the previous name keeps the registry truthful for the new names; after a refused rename the handle is reachable by no name |
| Registry.AddIdempotent | index.ts:694-703 | registering the same handle again (accepted or refused) changes nothing |
| Registry.RemoveUndoesAdd | index.ts:707-716 | registering under a free name and then unregistering restores the registry |
| Registry.StaleRemoveIsNoop | index.ts:1666-1671 | an unregister whose name now belongs to another handle, or to none, changes nothing |
| Registry.FirstRegistrantWins | index.ts:1649-1658 | of two handles registered under one name the first stays resolvable, and the refused one can still be registered under another free name |
| NodeMap.EditorAdded | index.ts:1645-1660 | an editor mounting updates only the editor registry, by the registration rule |
| NodeMap.EditorRemoved | index.ts:1662-1672 | an editor unmounting updates only the editor registry, by the guarded removal |
| NodeMap.EditorRenamed | index.ts:1674-1697 | an editor rename updates only the editor registry; its port registry, keyed by the editor itself, is untouched |
| NodeMap.PortOnline | index.ts:691-705 | a port coming online registers in its owning editor's port registry only; every other editor's registry is unchanged |
| NodeMap.PortOffline | index.ts:707-716 | a port going offline is unregistered from its owning editor's registry only |
| NodeMap.PortRenamed | index.ts:718-742 | a port rename is applied to its owning editor's registry only, with the rename rule |
| Link.GettersAgreeOnTruthiness | index.ts:950-984 | `from`/`to` turn an empty attribute into null while `in`/`out` keep "", yet each getter is truthy exactly when its attribute is non-empty |
| Link.Resolve | index.ts:1039-1053 | resolution succeeds iff the link is in a graph, not forced, all four names are non-empty, both editors are registered and the out/in ports are registered in those editors; the result is exactly those editors and ports |
| Link.EmptyNameNeverResolves | index.ts:1042-1043 | a link with any empty endpoint attribute never resolves |
| Link.Subscriptions | index.ts:1059-1143 | a connected link watches both ports and both editors for renames and both ports for going offline, and watches nothing but its endpoints, their editors and its own path |
| Link.Notify | index.ts:994-1023 | asking for the current state emits nothing and changes nothing; otherwise only the flag changes, and the log is one link-level notification of the new state followed by one port notification per bound end, out-port first, all of the same polarity |
| Link.NotifySignals | index.ts:1000-1022 | a notify emits one link-level notification exactly when the flag flips |
| Link.Refresh | index.ts:1025-1148 | afterwards the flag equals "both ports bound"; the bound ports and listeners are exactly the resolution's; a failed, forced or graph-less refresh ends with both references null and no listener; a disconnect precedes any connect |
| Link.RefreshLog | index.ts:1033-1057 | a refresh emits a full disconnect flip if the link was connected, then a full connect flip if it resolves |
| Link.RefreshAlternates | index.ts:1034-1147 | one refresh extends a strictly alternating connect/disconnect history, starting with connect, and the flag says whether the count is odd |
| Link.RunAlternates | index.ts:1025-1148 | over any sequence of refreshes, whatever the names, registries and forcing, a link's connect and disconnect notifications strictly alternate |
| Link.FreshLinkAlternates | index.ts:937 | a new link, initially disconnected, emits notifications that begin with a connect and alternate |
| Link.RefreshTwice | index.ts:1189-1193 | refreshing again with nothing changed reaches the same state; a bound link re-emits disconnect then connect, an unbound link emits nothing |
| Bookkeeping.PortConnect | index.ts:418-421 | a connect adds the link to the port's set and leaves the `connections` attribute equal to the set's size |
| Bookkeeping.PortDisconnect | index.ts:422-430 | a disconnect removes the link and leaves the attribute equal to the remaining size, or absent when none remain |
| Bookkeeping.ConnectThenDisconnect | index.ts:418-435 | connecting a new link raises `numConnections` by one, and disconnecting it restores the port's book |
| Bookkeeping.IndexConnect | index.ts:1608-1618 | a connect adds the in-port to the out-port's entry, leaves every other entry unchanged and never stores an empty set |
| Bookkeeping.IndexDisconnect | index.ts:1620-1629 | a disconnect removes the in-port from the out-port's entry, deletes the key once empty, and leaves other entries unchanged |
| Bookkeeping.IndexConnectTracks | index.ts:1608-1618 | when the index equals the out-to-in relation of the connected links, it still does after a further link connects |
| Bookkeeping.IndexDisconnectTracks | index.ts:1620-1629 | when no other connected link joins the same two ports, the index still equals the relation after a link disconnects |
| Bookkeeping.DuplicateLinksDrift | index.ts:1620-1629 | with two links joining the same ports, disconnecting one removes the pair from the index although the other is still connected |
| NodeMap.DeliverFlip | index.ts:1002-1020 | the notifications of one flip change the index by that pair and each endpoint port's book once, even for a link whose two ends are one port |
| NodeMap.TouchTwice | index.ts:418-430 | a port's listener running twice for one link has the effect of running once |
| NodeMap.RefreshLink | index.ts:1025-1148 | a refreshed link ends connected to exactly the ports resolution finds in the graph's current registries, or reset with no ports when none are found; the registries and every other link's state are unchanged |
| NodeMap.RefreshKeepsFlags | index.ts:1054-1057 | after any refresh, every link's connected flag says whether it holds both port references |
| NodeMap.DisconnectPhaseBooks | index.ts:1034 | the disconnect half of a refresh leaves the port books tracking the other connected links |
| NodeMap.ConnectPhaseBooks | index.ts:1147 | the connect half of a refresh adds the link to the books of exactly its two new ports |
| NodeMap.RefreshKeepsBooks | index.ts:418-430 | after any refresh of any link, every port's link set is exactly the connected links ending at it and its attribute is their count: the books never drift |
| NodeMap.RefreshKeepsIndex | index.ts:1608-1629 | after any refresh the graph index still equals the out-to-in relation of the connected links, provided no two connected links join the same ports |
| NodeMap.EmptyIsConsistent | index.ts:1397-1407 | a new graph satisfies every bookkeeping invariant |
| Viewport.ClampZoom | index.ts:1364 | the clamped zoom lies in [0.2, 1], equals the request when in range and the nearest bound otherwise |
| Viewport.SetZoom | index.ts:1363-1369 | after `setZoom` the zoom is the request clamped to the nearest bound of [0.2, 1], so an in-range request is stored as is, and pan and size are untouched |
| Viewport.SetPan | index.ts:1336-1351 | `setPan` stores the new offset and keeps the zoom and size, and so the zoom invariant |
| Viewport.SetSize | index.ts:1357-1361 | `setSize` stores the new size and keeps pan and zoom |
| Viewport.ViewWorldRoundTrip | index.ts:1324-1330 | view-to-world and world-to-view are mutual inverses for every non-zero zoom |
| Viewport.PanShiftsWorld | index.ts:1353-1355 | panning by d moves the world point under every view point by -d |
| Viewport.ZoomAbout | index.ts:1294-1301 | pan by -p/z, zoom, pan by p/z' keeps the world point at view position p fixed for any requested zoom, and stores an in-range request exactly |
| Viewport.Wheel | index.ts:1290-1304 | a wheel event keeps the zoom in range and the world point at view position (clientX, clientY) fixed; scrolling down never zooms in, up never zooms out; ignored while dragging |
| Viewport.ExtentBounds | index.ts:1371-1376 | the visible world extent is between one and five times the rendered size |
| Curve.RoundUpTenth | index.ts:24-26 | rounding to a tenth yields a whole number of tenths, at or above the input by less than a tenth |
| Curve.Tension | index.ts:70-77 | the tension is a whole number of tenths: exactly 50 within a distance of 100 either way, half the distance rounded up beyond that, and for inverted endpoints capped at exactly 300 from a distance of 600 on |
| Curve.TensionMonotone | index.ts:70-77 | the tension grows with the horizontal distance, in both directions from zero |
| Curve.LinkCurve | index.ts:58-83 | the curve's ends are exactly the anchors with each coordinate rounded up to a tenth, each control point keeps its end's height, and both bow outward by the tension of the rounded horizontal distance, so at least 50 and at most 300 when inverted |
| DragConnect.Candidate | index.ts:1521-1528 | the port under the pointer is accepted iff it is another port, of the opposite polarity, owned by another editor |
| DragConnect.Start | index.ts:1482-1501 | only a primary-button press starts a gesture, from that port and pointer, with no target and the curve collapsed to the port's anchor |
| DragConnect.Move | index.ts:1503-1550 | a move keeps the target equal to the filtered candidate; the curve's source end stays on the output side and its free end snaps to the candidate or follows the pointer in world space |
| DragConnect.Release | index.ts:1554-1590 | only the capturing pointer ends the gesture; a link is created iff a candidate is held, the index entry of the drag source lacks it, and both ports and editors are named; the output port becomes `from`/`out` and the input port `to`/`in` |
| DragConnect.CreatedLinkResolves | index.ts:1569-1586 | when both ports are registered under the names read, the created link resolves to the output port as out-port and the input port as in-port, from either drag direction |
| DragConnect.GuardCatchesDragFromOutput | index.ts:1561-1563 | repeating a drag from an output port onto an input port it is already indexed as connected to creates nothing |
| DragConnect.DuplicateFromInputSide | index.ts:1563 | dragging from the input side onto an already connected output port declares the same link again |
| DragConnect.ReleaseIntended | index.ts:1561-1586 | the release with the guard applied to the oriented pair: only the capturing pointer ends it, and a created link is oriented output to input |
| DragConnect.IntendedNeverDuplicates | index.ts:1561-1586 | with the oriented guard no gesture declares a link for a pair the index already holds, and the result agrees with the code for drags from an output port |
| DragConnect.IntendedCreatesFromInputSide | index.ts:1561-1586 | with the oriented guard, a drag from an input port onto an addressable candidate whose oriented pair the index lacks does declare the link |
| DragConnect.GuardsDifferOnInputKey | index.ts:1563 | when an input-polarity port is an out-port key of the index, the guard as written refuses a drag from it onto an unconnected output port, while the oriented guard declares that link |
| Scenario.Mounted | index.ts:691-705 | two editors and their two ports register under their names |
| Scenario.DragConnectEndToEnd | index.ts:1554-1629 | a drag from A.p1 onto B.p2 declares from=A out=p1 to=B in=p2; the link resolves to the two ports with their listeners, both indices record it, and a repeated drag is refused |
| Scenario.OfflineDisconnects | index.ts:1075-1081 | when the in-port goes offline, the link's forced disconnect (with the graph still set) empties both indices and resets the link, and the editor then unregisters the port |

## Left out

- DOM, shadow roots, styles, and SVG element and attribute construction (`attr`, `SVG`, gradients, `d`-string formatting). These are rendering.
- Event dispatch and bubbling, `upgradeAll`, `upgradeProperties`, `findAncestorOfType` and `defineTag`. They are replaced by explicit transition functions, with each port's owning editor passed as an argument.
- `createDebouncedResizeObserver` (`index.ts:105-140`). It depends on `ResizeObserver`, `setTimeout` and a random token.
- Port anchor computation (`index.ts:510-539`) and `elementFromPoint` hit-testing. Anchors and the port under the pointer are inputs.
- Title dragging (`index.ts:582-650`), canvas panning (`index.ts:1252-1288`) and pointer capture. These are gesture plumbing.
- The graph's set of ports with drag listeners (`addPort`/`removePort`, `index.ts:1473-1600`, `1698-1701`) and its set of links (`index.ts:1704-1724`). They only attach and detach listeners and visuals.
- Link colours (`refreshColor`), the link's own position refresh and the viewport notifications. These only restyle or relay.
- The dispatch of a rename or offline notification, and its bubbling, to the links that listen for it. `NodeMap.RefreshLink` with `force` models one such link's forced refresh. The removal of the link element after an offline notification is not modelled: the model keeps the link's reset state.
- Re-dispatch of a detached link's disconnect to the graph (`index.ts:1013-1015`). The graph is assumed to receive every link-level notification.
- Several gestures at once. The code does not stop a second press from starting one; the model has one gesture at a time, and port attributes do not change between a move and the release.
- IEEE-754 arithmetic, NaN and infinities. Geometry is over `real`.
- Viewport.Wheel: the factor `Math.pow(zoom, 0.0001)` is a parameter (`damping`), so the contract bounds the direction of the zoom change but not its size.
- NodeMap.RefreshKeepsIndex: exactness is proved only while no two connected links join the same two ports. `Bookkeeping.DuplicateLinksDrift` shows that the set-valued index can drift otherwise.

## Findings

| source | as written | input that shows it | evidently intended | confidence | as-written member | corrected member |
|---|---|---|---|---|---|---|
| index.ts:1563 | the duplicate guard looks up `connections.get(port)` under the drag source, but the index is keyed by out-port | link A.p1 -> B.p2 connected (index {1: {2}}), then drag from input p2 onto output p1: a second identical link is declared | look up the in-port under the out-port of the oriented pair, so duplicates are refused from either side; the correction is not only stricter, since resolution ignores polarity: an input-polarity port that is some link's out-port key makes the code refuse an unrelated link that the corrected guard declares (GuardsDifferOnInputKey) | medium, not executed | DragConnect.Release (with DragConnect.DuplicateFromInputSide) | DragConnect.ReleaseIntended (with DragConnect.IntendedNeverDuplicates and DragConnect.IntendedCreatesFromInputSide) |

=== FILE: bookkeeping.dfy ===
/** The two connection indices derived from link notifications: each port's set of
    connected links with its `connections` attribute, and the graph's map from a
    link's out-port to the set of in-ports it is connected to. */
module Bookkeeping {
  import opened Handles
  import opened Link

  /** A port's connected links and its `connections` attribute (absent, or a count). */
  datatype PortBook = PortBook(links: set<LinkId>, count: Option<nat>)

  const EmptyBook: PortBook := PortBook({}, None)

  /** The attribute shows the number of connected links, and is absent when there are none. */
  ghost predicate CountMirrors(b: PortBook) {
    b.count == if b.links == {} then None else Some(|b.links|)
  }

  /** The port's `connect` listener. */
  function PortConnect(b: PortBook, l: LinkId): (r: PortBook)
    ensures r.links == b.links + {l}
    ensures CountMirrors(r)
  {
    var links := b.links + {l};
    PortBook(links, Some(|links|))
  }

  /** The port's `disconnect` listener. */
  function PortDisconnect(b: PortBook, l: LinkId): (r: PortBook)
    ensures r.links == b.links - {l}
    ensures CountMirrors(r)
  {
    var links := b.links - {l};
    var count := |links|;
    PortBook(links, if count > 0 then Some(count) else None)
  }

  /** `numConnections`. */
  function NumConnections(b: PortBook): nat {
    |b.links|
  }

  /** A link connected and then disconnected leaves a port's book as it found it,
      provided the link was not already counted there. */
  lemma ConnectThenDisconnect(b: PortBook, l: LinkId)
    requires CountMirrors(b) && l !in b.links
    ensures PortDisconnect(PortConnect(b, l), l) == b
    ensures NumConnections(PortConnect(b, l)) == NumConnections(b) + 1
  {
    assert b.links + {l} - {l} == b.links;
  }

  /** The graph's `connections` map from out-port to in-ports. */
  type Index = map<PortId, set<PortId>>

  /** `connections.get(out)`, with an absent key read as the empty set. */
  function Get(m: Index, out: PortId): set<PortId> {
    if out in m then m[out] else {}
  }

  /** The representation invariant: no key maps to an empty set. */
  ghost predicate NoEmptySets(m: Index) {
    forall k :: k in m ==> m[k] != {}
  }

  /** The graph's `connect` listener. */
  function IndexConnect(m: Index, out: PortId, inp: PortId): (r: Index)
    ensures Get(r, out) == Get(m, out) + {inp}
    ensures forall k :: k != out ==> Get(r, k) == Get(m, k)
    ensures NoEmptySets(m) ==> NoEmptySets(r)
  {
    if out in m then m[out := m[out] + {inp}] else m[out := {inp}]
  }

  /** The graph's `disconnect` listener. */
  function IndexDisconnect(m: Index, out: PortId, inp: PortId): (r: Index)
    ensures Get(r, out) == Get(m, out) - {inp}
    ensures forall k :: k != out ==> Get(r, k) == Get(m, k)
    ensures NoEmptySets(m) ==> NoEmptySets(r)
    ensures out !in r || inp !in r[out]
  {
    if out in m then
      var rest := m[out] - {inp};
      if |rest| == 0 then m - {out} else m[out := rest]
    else m
  }

  /** The in-ports connected to `out` according to a set of bound links. */
  ghost function InsOf(bound: map<LinkId, Ends>, out: PortId): set<PortId> {
    set l | l in bound && bound[l].out == out :: bound[l].inp
  }

  /** The index is exactly the one the bound links determine. */
  ghost predicate Tracks(m: Index, bound: map<LinkId, Ends>) {
    NoEmptySets(m) && forall o :: Get(m, o) == InsOf(bound, o)
  }

  /** No two bound links join the same pair of ports in the same direction. */
  ghost predicate DistinctPairs(bound: map<LinkId, Ends>) {
    forall l1, l2 :: l1 in bound && l2 in bound && bound[l1] == bound[l2] ==> l1 == l2
  }

  lemma InsOfAdd(bound: map<LinkId, Ends>, l: LinkId, e: Ends, o: PortId)
    requires l !in bound
    ensures InsOf(bound[l := e], o) == InsOf(bound, o) + (if o == e.out then {e.inp} else {})
  {
    var b' := bound[l := e];
    forall i | i in InsOf(b', o) ensures i in InsOf(bound, o) + (if o == e.out then {e.inp} else {}) {
      var k :| k in b' && b'[k].out == o && b'[k].inp == i;
      if k != l {
        assert bound[k].out == o && bound[k].inp == i;
      }
    }
    forall i | i in InsOf(bound, o) ensures i in InsOf(b', o) {
      var k :| k in bound && bound[k].out == o && bound[k].inp == i;
      assert b'[k] == bound[k];
    }
    if o == e.out {
      assert b'[l].inp == e.inp;
    }
  }

  lemma InsOfRemove(bound: map<LinkId, Ends>, l: LinkId, o: PortId)
    requires l in bound && DistinctPairs(bound)
    ensures InsOf(bound - {l}, o) == InsOf(bound, o) - (if o == bound[l].out then {bound[l].inp} else {})
  {
    var b' := bound - {l};
    forall i | i in InsOf(bound, o) && !(o == bound[l].out && i == bound[l].inp) ensures i in InsOf(b', o) {
      var k :| k in bound && bound[k].out == o && bound[k].inp == i;
      assert k != l;
      assert b'[k] == bound[k];
    }
    forall i | i in InsOf(b', o) ensures i in InsOf(bound, o) && !(o == bound[l].out && i == bound[l].inp) {
      var k :| k in b' && b'[k].out == o && b'[k].inp == i;
      assert bound[k] == b'[k];
    }
  }

  /** A link connecting (it was not bound before) keeps the index exact. */
  lemma IndexConnectTracks(m: Index, bound: map<LinkId, Ends>, l: LinkId, e: Ends)
    requires Tracks(m, bound) && l !in bound
    ensures Tracks(IndexConnect(m, e.out, e.inp), bound[l := e])
  {
    forall o ensures Get(IndexConnect(m, e.out, e.inp), o) == InsOf(bound[l := e], o) {
      InsOfAdd(bound, l, e, o);
    }
  }

  /** A link disconnecting keeps the index exact, as long as no other bound link
      joins the same two ports. */
  lemma IndexDisconnectTracks(m: Index, bound: map<LinkId, Ends>, l: LinkId)
    requires Tracks(m, bound) && l in bound && DistinctPairs(bound)
    ensures Tracks(IndexDisconnect(m, bound[l].out, bound[l].inp), bound - {l})
  {
    forall o ensures Get(IndexDisconnect(m, bound[l].out, bound[l].inp), o) == InsOf(bound - {l}, o) {
      InsOfRemove(bound, l, o);
    }
  }

  /** With two links joining the same ports, the index is a set and cannot count them:
      disconnecting one of them drops the pair although the other is still connected. */
  lemma DuplicateLinksDrift()
    ensures var e := Ends(1, 2);
            var bound := map[10 := e, 11 := e];
            && Tracks(map[1 := {2}], bound)
            && !Tracks(IndexDisconnect(map[1 := {2}], e.out, e.inp), bound - {10})
  {
    var e := Ends(1, 2);
    var bound := map[10 := e, 11 := e];
    var m: Index := map[1 := {2}];
    forall o ensures Get(m, o) == InsOf(bound, o) {
      if o == 1 {
        assert bound[10].inp == 2;
      }
    }
    var rest := bound - {10};
    assert rest[11].out == 1 && rest[11].inp == 2;
    assert 2 in InsOf(rest, 1);
    assert Get(IndexDisconnect(m, 1, 2), 1) == {};
  }

  /** The links connected at port `p` according to a set of bound links. */
  ghost function LinksAt(bound: map<LinkId, Ends>, p: PortId): set<LinkId> {
    set l | l in bound && (bound[l].out == p || bound[l].inp == p)
  }

  function BookOf(books: map<PortId, PortBook>, p: PortId): PortBook {
    if p in books then books[p] else EmptyBook
  }

  lemma LinksAtRemove(bound: map<LinkId, Ends>, l: LinkId, p: PortId)
    requires l in bound
    ensures LinksAt(bound - {l}, p) == LinksAt(bound, p) - {l}
    ensures l in LinksAt(bound, p) <==> p == bound[l].out || p == bound[l].inp
  {
  }

  lemma LinksAtAdd(bound: map<LinkId, Ends>, l: LinkId, e: Ends, p: PortId)
    requires l !in bound
    ensures LinksAt(bound[l := e], p) == LinksAt(bound, p) + (if p == e.out || p == e.inp then {l} else {})
  {
    var b' := bound[l := e];
    if p == e.out || p == e.inp {
      assert l in LinksAt(b', p);
    }
    forall k | k in LinksAt(bound, p) ensures k in LinksAt(b', p) {
      assert b'[k] == bound[k];
    }
  }

  /** Every port's book holds exactly the bound links that end at it, and its
      attribute mirrors their number. */
  ghost predicate BooksTrack(books: map<PortId, PortBook>, bound: map<LinkId, Ends>) {
    forall p :: BookOf(books, p).links == LinksAt(bound, p) && CountMirrors(BookOf(books, p))
  }

  /** The books after one link disconnects from its two ports. */
  lemma BooksAfterDisconnect(books: map<PortId, PortBook>, books': map<PortId, PortBook>, bound: map<LinkId, Ends>, l: LinkId)
    requires BooksTrack(books, bound) && l in bound
    requires forall p :: BookOf(books', p) ==
               if p == bound[l].out || p == bound[l].inp then PortDisconnect(BookOf(books, p), l) else BookOf(books, p)
    ensures BooksTrack(books', bound - {l})
  {
    forall p ensures BookOf(books', p).links == LinksAt(bound - {l}, p) {
      LinksAtRemove(bound, l, p);
    }
  }

  /** The books after one link, not bound before, connects to two ports. */
  lemma BooksAfterConnect(books: map<PortId, PortBook>, books': map<PortId, PortBook>, bound: map<LinkId, Ends>, l: LinkId, e: Ends)
    requires BooksTrack(books, bound) && l !in bound
    requires forall p :: BookOf(books', p) ==
               if p == e.out || p == e.inp then PortConnect(BookOf(books, p), l) else BookOf(books, p)
    ensures BooksTrack(books', bound[l := e])
  {
    forall p ensures BookOf(books', p).links == LinksAt(bound[l := e], p) {
      LinksAtAdd(bound, l, e, p);
    }
  }
}

=== FILE: curve.dfy ===
/** The shape of a link (`setLinkCurve`): a cubic curve between two port anchors
    with horizontal tangents at both ends, idealised over exact reals. */
module Curve {
  import opened Viewport

  const PathTension: real := 0.5
  const MinPathTension: real := 50.0
  const MaxInvertedPathTension: real := 300.0

  /** Start point, the two control points and the end point of the cubic segment
      written into the path's `d` attribute. */
  datatype Cubic = Cubic(start: Point, c1: Point, c2: Point, end: Point)

  /** The least integer not below `v`. */
  function Ceil(v: real): (n: int)
    ensures v <= n as real < v + 1.0
  {
    -((-v).Floor)
  }

  lemma CeilMonotone(u: real, v: real)
    requires u <= v
    ensures Ceil(u) <= Ceil(v)
  {
  }

  lemma CeilOfInt(n: int)
    ensures Ceil(n as real) == n
  {
  }

  /** `roundTo(v, 0.1)`: `Math.ceil(v / 0.1) * 0.1`, read as rounding up to a tenth. */
  function RoundUpTenth(v: real): (r: real)
    ensures v <= r < v + 0.1
    // the result is a whole number of tenths
    ensures (r * 10.0).Floor as real == r * 10.0
  {
    Ceil(v * 10.0) as real / 10.0
  }

  lemma RoundUpTenthMonotone(u: real, v: real)
    requires u <= v
    ensures RoundUpTenth(u) <= RoundUpTenth(v)
  {
    CeilMonotone(u * 10.0, v * 10.0);
  }

  /** A value that is a whole number of tenths is left alone by the rounding. */
  lemma RoundUpTenthFixes(n: int)
    ensures RoundUpTenth(n as real / 10.0) == n as real / 10.0
  {
    assert n as real / 10.0 * 10.0 == n as real;
    CeilOfInt(n);
  }

  /** Rounding up never crosses a whole number of tenths. */
  lemma RoundUpTenthCapped(v: real, n: int)
    ensures v <= n as real / 10.0 ==> RoundUpTenth(v) <= n as real / 10.0
  {
    if v <= n as real / 10.0 {
      RoundUpTenthMonotone(v, n as real / 10.0);
      RoundUpTenthFixes(n);
    }
  }

  function Max(a: real, b: real): real {
    if a >= b then a else b
  }

  function Abs(a: real): real {
    if a < 0.0 then -a else a
  }

  /** The horizontal tension for a horizontal distance `hDist = x2 - x1`. */
  function Tension(hDist: real): (t: real)
    // a minimum visible bow for every pair of endpoints
    ensures t >= MinPathTension
    // a bounded bow when the endpoints are inverted
    ensures hDist <= 0.0 ==> t <= MaxInvertedPathTension
    // half the distance, rounded up, once the endpoints are far enough apart
    ensures hDist >= 2.0 * MinPathTension ==> hDist * PathTension <= t < hDist * PathTension + 0.1
    // the minimum near zero, in both directions
    ensures -2.0 * MinPathTension <= hDist <= 2.0 * MinPathTension ==> t == MinPathTension
    // half the inverted distance, rounded up, until the inverted cap is reached
    ensures -2.0 * MaxInvertedPathTension <= hDist <= -2.0 * MinPathTension ==>
              -hDist * PathTension <= t < -hDist * PathTension + 0.1
    ensures hDist <= -2.0 * MaxInvertedPathTension ==> t == MaxInvertedPathTension
    // a whole number of tenths
    ensures (t * 10.0).Floor as real == t * 10.0
  {
    var a := Max(MinPathTension, Abs(Max(-MaxInvertedPathTension, hDist * PathTension)));
    RoundUpTenthCapped(a, 3000);
    RoundUpTenthFixes(500);
    RoundUpTenthFixes(3000);
    RoundUpTenth(a)
  }

  /** The tension grows with the distance between the endpoints, in both directions. */
  lemma TensionMonotone(h1: real, h2: real)
    requires 0.0 <= h1 <= h2 || h2 <= h1 <= 0.0
    ensures Tension(h1) <= Tension(h2)
  {
    var a1 := Max(MinPathTension, Abs(Max(-MaxInvertedPathTension, h1 * PathTension)));
    var a2 := Max(MinPathTension, Abs(Max(-MaxInvertedPathTension, h2 * PathTension)));
    assert a1 <= a2;
    RoundUpTenthMonotone(a1, a2);
  }

  /** Rounding both coordinates up keeps their order. */
  lemma InvertedStaysInverted(x1: real, x2: real)
    ensures x2 < x1 ==> RoundUpTenth(x2) <= RoundUpTenth(x1)
  {
    if x2 < x1 {
      RoundUpTenthMonotone(x2, x1);
    }
  }

  /** `setLinkCurve`: every coordinate is first rounded up to a tenth, then the control
      points are placed `t` to the right of the start and `t` to the left of the end. */
  function LinkCurve(x1: real, y1: real, x2: real, y2: real): (r: Cubic)
    // the endpoints are the anchors, rounded up to a tenth
    ensures x1 <= r.start.x < x1 + 0.1 && y1 <= r.start.y < y1 + 0.1
    ensures x2 <= r.end.x < x2 + 0.1 && y2 <= r.end.y < y2 + 0.1
    ensures r.start == Point(RoundUpTenth(x1), RoundUpTenth(y1)) && r.end == Point(RoundUpTenth(x2), RoundUpTenth(y2))
    // horizontal tangents: each control point keeps its endpoint's height
    ensures r.c1.y == r.start.y && r.c2.y == r.end.y
    // both control points bow outwards by the same tension of at least the minimum
    ensures r.c1.x - r.start.x == r.end.x - r.c2.x >= MinPathTension
    // the bow is the tension for the horizontal distance between the rounded ends
    ensures r.c1.x - r.start.x == Tension(r.end.x - r.start.x)
    // and by at most the inverted maximum when the end lies left of the start
    ensures x2 < x1 ==> r.c1.x - r.start.x <= MaxInvertedPathTension
  {
    var sx := RoundUpTenth(x1);
    var sy := RoundUpTenth(y1);
    var ex := RoundUpTenth(x2);
    var ey := RoundUpTenth(y2);
    InvertedStaysInverted(x1, x2);
    var t := Tension(ex - sx);
    Cubic(Point(sx, sy), Point(sx + t, sy), Point(ex - t, ey), Point(ex, ey))
  }
}

=== FILE: dragconnect.dfy ===
/** The drag-to-connect gesture of the graph: pressing the primary button on a port
    starts it, every pointer move re-evaluates the port under the pointer, and the
    release of the same pointer may append a new declarative link.  Hit-testing is
    abstracted: each move is given the port under the pointer, if any. */
module DragConnect {
  import opened Handles
  import opened Viewport
  import Link
  import Bookkeeping
  import Registry

  datatype EditorView = EditorView(id: EditorId, name: Name)

  /** What the gesture reads from a port: identity, polarity (the `out` attribute),
      name, owning editor (`nodeEditor`) and anchor (`handleX`, `handleY`). */
  datatype PortView = PortView(id: PortId, isOut: bool, name: Name, editor: Option<EditorView>, anchor: Point)

  function EditorOf(p: PortView): Option<EditorId> {
    if p.editor.Some? then Some(p.editor.value.id) else None
  }

  /** The port under the pointer is a connection candidate when it is another port, of
      the opposite polarity, on another editor (two ports without an editor count as
      sharing one). */
  function Candidate(source: PortView, hovered: Option<PortView>): (r: Option<PortView>)
    ensures r.Some? <==> hovered.Some? && hovered.value.id != source.id
                         && hovered.value.isOut != source.isOut && EditorOf(hovered.value) != EditorOf(source)
    ensures r.Some? ==> r == hovered
  {
    if hovered.Some? && hovered.value.id != source.id && source.isOut != hovered.value.isOut
       && EditorOf(source) != EditorOf(hovered.value)
    then hovered
    else None
  }

  /** A gesture in progress: the port it started from, the capturing pointer, the last
      accepted candidate and the two ends of the transient curve, output side first. */
  datatype Gesture = Gesture(source: PortView, pointer: nat, target: Option<PortView>, marker: (Point, Point))

  /** The invariant of a gesture: its target, if any, passed the candidate filter. */
  predicate WellFormed(g: Gesture) {
    g.target.Some? ==> Candidate(g.source, g.target) == g.target
  }

  /** `pointerdown` on a port: only the primary button starts a gesture, whose curve
      is a single point at the port's anchor. */
  function Start(port: PortView, button: int, pointer: nat): (r: Option<Gesture>)
    ensures r.Some? <==> button == 0
    ensures r.Some? ==> r.value.source == port && r.value.pointer == pointer && r.value.target.None?
    ensures r.Some? ==> WellFormed(r.value) && r.value.marker == (port.anchor, port.anchor)
  {
    if button != 0 then None else Some(Gesture(port, pointer, None, (port.anchor, port.anchor)))
  }

  /** The port at the output end of a connection between `a` and `b`. */
  function OutputSide(a: PortView, b: PortView): PortView {
    if a.isOut then a else b
  }

  function InputSide(a: PortView, b: PortView): PortView {
    if a.isOut then b else a
  }

  /** `pointermove`: `hovered` is the port under the pointer and `view` the pointer in
      view coordinates relative to the graph. */
  function Move(g: Gesture, hovered: Option<PortView>, c: Canvas, view: Point): (r: Gesture)
    requires c.zoom != 0.0
    ensures r.source == g.source && r.pointer == g.pointer
    ensures r.target == Candidate(g.source, hovered) && WellFormed(r)
    // the source's end of the curve sits on the output side
    ensures (if g.source.isOut then r.marker.0 else r.marker.1) == g.source.anchor
    // the free end snaps to the candidate's anchor, or else follows the pointer in world space
    ensures (if g.source.isOut then r.marker.1 else r.marker.0) ==
            if r.target.Some? then r.target.value.anchor else ViewToWorld(c, view)
  {
    var target := Candidate(g.source, hovered);
    var start := g.source.anchor;
    var end := if target.Some? then target.value.anchor else ViewToWorld(c, view);
    g.(target := target, marker := if g.source.isOut then (start, end) else (end, start))
  }

  /** After a release of the capturing pointer the gesture is over, possibly with a
      new link declared by its four attributes. */
  datatype Outcome = StillDragging(g: Gesture) | Ended(created: Option<Link.Attrs>)

  /** Both the port and its owning editor have non-empty names. */
  predicate Addressable(p: PortView) {
    p.editor.Some? && Named(p.editor.value.name) && Named(p.name)
  }

  /** The attributes of the new link: the output-bearing port when dragging forward
      from an output to an input, and otherwise the candidate, becomes `from`/`out`. */
  function Oriented(source: PortView, target: PortView): Link.Attrs
    requires Addressable(source) && Addressable(target)
  {
    var forward := source.isOut && !target.isOut;
    var a := (source.editor.value.name, source.name);
    var b := (target.editor.value.name, target.name);
    Link.Attrs(
      if forward then a.0 else b.0,
      if forward then a.1 else b.1,
      if forward then b.0 else a.0,
      if forward then b.1 else a.1)
  }

  /** `pointerup`, as written: the duplicate guard looks up the graph index (keyed by
      out-port) under the port the drag started from. */
  function Release(g: Gesture, pointer: nat, index: Bookkeeping.Index): (r: Outcome)
    ensures pointer != g.pointer ==> r == StillDragging(g)
    ensures pointer == g.pointer ==> r.Ended?
    // a link is created exactly when a candidate is held, the index entry of the
    // source does not list it, and both ports and both editors have names
    ensures r.Ended? && r.created.Some? <==>
              pointer == g.pointer && g.target.Some? && g.target.value.id !in Bookkeeping.Get(index, g.source.id)
              && Addressable(g.source) && Addressable(g.target.value)
    // the output-bearing port is written to `from`/`out`, the input-bearing one to `to`/`in`
    ensures WellFormed(g) && r.Ended? && r.created.Some? ==>
              var o, i := OutputSide(g.source, g.target.value), InputSide(g.source, g.target.value);
              && o.isOut && !i.isOut
              && r.created.value == Link.Attrs(o.editor.value.name, o.name, i.editor.value.name, i.name)
    // every created link has four non-empty endpoint names
    ensures r.Ended? && r.created.Some? ==>
              var a := r.created.value; Named(a.from) && Named(a.out) && Named(a.to) && Named(a.inp)
  {
    if pointer != g.pointer then StillDragging(g)
    else if g.target.Some? && g.target.value.id !in Bookkeeping.Get(index, g.source.id)
            && Addressable(g.source) && Addressable(g.target.value)
    then Ended(Some(Oriented(g.source, g.target.value)))
    else Ended(None)
  }

  /** The port is reachable through `regs` by its editor's name and its own name. */
  ghost predicate Registered(regs: Link.Registries, p: PortView) {
    && Addressable(p)
    && Registry.Lookup(regs.editors, p.editor.value.name.value) == Some(p.editor.value.id)
    && Registry.Lookup(Link.PortsOf(regs, p.editor.value.id), p.name.value) == Some(p.id)
  }

  /** End to end: when both ports are registered under the names the gesture read, the
      link it creates resolves to the output port as `outPort` and the input port as
      `inPort`, whichever side the drag started from. */
  lemma CreatedLinkResolves(g: Gesture, index: Bookkeeping.Index, regs: Link.Registries)
    requires WellFormed(g) && g.target.Some?
    requires Registered(regs, g.source) && Registered(regs, g.target.value)
    requires Release(g, g.pointer, index).Ended? && Release(g, g.pointer, index).created.Some?
    ensures var o, i := OutputSide(g.source, g.target.value), InputSide(g.source, g.target.value);
            Link.Resolve(Release(g, g.pointer, index).created.value, Some(regs), false) ==
              Some(Link.Resolution(o.editor.value.id, i.editor.value.id, Link.Ends(o.id, i.id)))
  {
    var o, i := OutputSide(g.source, g.target.value), InputSide(g.source, g.target.value);
    var res := Link.Resolution(o.editor.value.id, i.editor.value.id, Link.Ends(o.id, i.id));
    assert Link.Binds(regs, Release(g, g.pointer, index).created.value, res);
  }

  /** Repeating a drag from an output port onto an input port it is already indexed as
      connected to creates nothing. */
  lemma GuardCatchesDragFromOutput(g: Gesture, index: Bookkeeping.Index)
    requires WellFormed(g) && g.source.isOut && g.target.Some?
    requires g.target.value.id in Bookkeeping.Get(index, g.source.id)
    ensures Release(g, g.pointer, index) == Ended(None)
  {
  }

  /** The guard misses duplicates when the drag starts from the input side: with
      `A.p1 -> B.p2` already connected (the index maps port 1 to {2}), dragging from
      `p2` onto `p1` declares the same link again. */
  lemma DuplicateFromInputSide()
    ensures var p1 := PortView(1, true, Some("p1"), Some(EditorView(1, Some("A"))), Point(0.0, 0.0));
            var p2 := PortView(2, false, Some("p2"), Some(EditorView(2, Some("B"))), Point(100.0, 0.0));
            var g := Gesture(p2, 7, Some(p1), (p1.anchor, p2.anchor));
            var index: Bookkeeping.Index := map[1 := {2}];
            && WellFormed(g)
            && 2 in Bookkeeping.Get(index, 1)
            && Release(g, 7, index) == Ended(Some(Link.Attrs(Some("A"), Some("p1"), Some("B"), Some("p2"))))
  {
  }

  /** `pointerup` with the duplicate guard looking up the oriented pair, as the guard
      is evidently meant to. */
  function ReleaseIntended(g: Gesture, pointer: nat, index: Bookkeeping.Index): (r: Outcome)
    requires WellFormed(g)
    ensures pointer != g.pointer ==> r == StillDragging(g)
    ensures pointer == g.pointer ==> r.Ended?
    ensures r.Ended? && r.created.Some? ==> g.target.Some? && Addressable(g.source) && Addressable(g.target.value)
    ensures r.Ended? && r.created.Some? ==>
              var o, i := OutputSide(g.source, g.target.value), InputSide(g.source, g.target.value);
              && o.isOut && !i.isOut
              && r.created.value == Link.Attrs(o.editor.value.name, o.name, i.editor.value.name, i.name)
  {
    if pointer != g.pointer then StillDragging(g)
    else if g.target.Some? && Addressable(g.source) && Addressable(g.target.value)
            && InputSide(g.source, g.target.value).id !in Bookkeeping.Get(index, OutputSide(g.source, g.target.value).id)
    then Ended(Some(Oriented(g.source, g.target.value)))
    else Ended(None)
  }

  /** With the oriented guard, a gesture never declares a link between two ports the
      index already records as connected, from whichever side it starts; and it agrees
      with the source whenever the drag starts from an output port. */
  lemma IntendedNeverDuplicates(g: Gesture, pointer: nat, index: Bookkeeping.Index)
    requires WellFormed(g)
    ensures var r := ReleaseIntended(g, pointer, index);
            r.Ended? && r.created.Some? ==>
              InputSide(g.source, g.target.value).id !in Bookkeeping.Get(index, OutputSide(g.source, g.target.value).id)
    ensures g.source.isOut ==> ReleaseIntended(g, pointer, index) == Release(g, pointer, index)
  {
  }

  /** The oriented guard still lets a drag from an input port declare a link whose
      oriented pair the index does not hold. */
  lemma IntendedCreatesFromInputSide(g: Gesture, index: Bookkeeping.Index)
    requires WellFormed(g) && !g.source.isOut && g.target.Some?
    requires Addressable(g.source) && Addressable(g.target.value)
    requires g.source.id !in Bookkeeping.Get(index, g.target.value.id)
    ensures ReleaseIntended(g, g.pointer, index).Ended? && ReleaseIntended(g, g.pointer, index).created.Some?
  {
  }

  /** Resolution ignores polarity, so an input-polarity port can be some link's out-port
      and a key of the index (here port 3 maps to {4}).  Dragging from that port onto the
      output port 4 is then refused by the guard as written, while the oriented guard,
      which finds no entry for the pair 4 -> 3, declares the link. */
  lemma GuardsDifferOnInputKey()
    ensures var q3 := PortView(3, false, Some("q3"), Some(EditorView(1, Some("A"))), Point(0.0, 0.0));
            var q4 := PortView(4, true, Some("q4"), Some(EditorView(2, Some("B"))), Point(100.0, 0.0));
            var g := Gesture(q3, 7, Some(q4), (q4.anchor, q3.anchor));
            var index: Bookkeeping.Index := map[3 := {4}];
            && WellFormed(g)
            && Release(g, 7, index) == Ended(None)
            && ReleaseIntended(g, 7, index) == Ended(Some(Link.Attrs(Some("B"), Some("q4"), Some("A"), Some("q3"))))
  {
  }
}

=== FILE: handles.dfy ===
/** Shared vocabulary of the node-editor model: abstract handles for the live
    elements, an optional value standing in for `null`, and the truthiness test the
    components apply to name attributes. */
module Handles {

  /** Editors, ports and links are addressed by abstract identities instead of DOM
      element references; two handles are the same element iff their ids are equal. */
  type EditorId = nat
  type PortId = nat
  type LinkId = nat

  /** `None` plays the part of `null`. */
  datatype Option<+T> = None | Some(value: T)

  /** The value of a string attribute: absent (`null`) or some string, possibly empty. */
  type Name = Option<string>

  /** JavaScript truthiness of a `string | null`: neither `null` nor the empty string. */
  predicate Named(n: Name) {
    n.Some? && n.value != ""
  }
}

=== FILE: link.dfy ===
/** A declarative link (`NodeLinkElement`): four endpoint names, resolved against the
    graph's editor registry and the editors' port registries into a pair of live
    ports, with the two-state connected flag and the listeners bound while connected. */
module Link {
  import opened Handles
  import Registry

  /** The two ports a resolved link joins: `fromPort` (reported as the link's
      `outPort`) and `toPort` (its `inPort`).  The source always assigns the two
      references together, so the model keeps them as one optional pair. */
  datatype Ends = Ends(out: PortId, inp: PortId)

  /** The raw `from`, `out`, `to` and `in` attributes. */
  datatype Attrs = Attrs(from: Name, out: Name, to: Name, inp: Name)

  /** What a link looks up in its graph: the editor registry and, per editor, its
      port registry (an editor without an entry has no named ports). */
  datatype Registries = Registries(editors: map<string, EditorId>, ports: map<EditorId, map<string, PortId>>)

  function PortsOf(regs: Registries, e: EditorId): map<string, PortId> {
    if e in regs.ports then regs.ports[e] else map[]
  }

  /** The `fromName` getter: `getAttribute('from') || null`, so an empty value reads as null. */
  function FromName(a: Attrs): Name {
    if a.from == Some("") then None else a.from
  }

  /** The `toName` getter, with the same `||`. */
  function ToName(a: Attrs): Name {
    if a.to == Some("") then None else a.to
  }

  /** The `outName` getter: `getAttribute('out') ?? null`, so an empty value stays "". */
  function OutName(a: Attrs): Name {
    a.out
  }

  /** The `inName` getter, with the same `??`. */
  function InName(a: Attrs): Name {
    a.inp
  }

  /** The getters disagree on an empty attribute (`from`/`to` turn it into null,
      `in`/`out` keep ""), but the truthiness test resolution applies erases the
      difference: each getter is truthy exactly when its attribute is. */
  lemma GettersAgreeOnTruthiness(a: Attrs)
    ensures Named(FromName(a)) <==> Named(a.from)
    ensures Named(ToName(a)) <==> Named(a.to)
    ensures Named(OutName(a)) <==> Named(a.out)
    ensures Named(InName(a)) <==> Named(a.inp)
    ensures FromName(a) != Some("") && ToName(a) != Some("")
    ensures a.inp == Some("") ==> InName(a) == Some("")
  {
  }

  /** The editors and ports a link resolved to. */
  datatype Resolution = Resolution(fromEditor: EditorId, toEditor: EditorId, ends: Ends)

  /** Reference definition of a successful resolution: all four names are non-empty,
      `from`/`to` name registered editors, and `out`/`in` name ports registered in
      those editors. */
  ghost predicate Binds(regs: Registries, a: Attrs, r: Resolution) {
    && Named(a.from) && Named(a.out) && Named(a.to) && Named(a.inp)
    && Registry.Lookup(regs.editors, a.from.value) == Some(r.fromEditor)
    && Registry.Lookup(regs.editors, a.to.value) == Some(r.toEditor)
    && Registry.Lookup(PortsOf(regs, r.fromEditor), a.out.value) == Some(r.ends.out)
    && Registry.Lookup(PortsOf(regs, r.toEditor), a.inp.value) == Some(r.ends.inp)
  }

  /** The lookup part of `refreshConnection`.  `regs` is `None` when the link has no
      enclosing graph; `force` is the `forceDisconnect` argument. */
  function Resolve(a: Attrs, regs: Option<Registries>, force: bool): (r: Option<Resolution>)
    ensures r.Some? ==> !force && regs.Some? && Binds(regs.value, a, r.value)
    ensures forall res :: !force && regs.Some? && Binds(regs.value, a, res) ==> r == Some(res)
  {
    if regs.None? || force then None
    else
      var toName, fromName, inName, outName := ToName(a), FromName(a), InName(a), OutName(a);
      if !(Named(toName) && Named(fromName) && Named(inName) && Named(outName)) then None
      else
        var fromEditor := Registry.Lookup(regs.value.editors, fromName.value);
        var toEditor := Registry.Lookup(regs.value.editors, toName.value);
        if fromEditor.None? || toEditor.None? then None
        else
          var fromPort := Registry.Lookup(PortsOf(regs.value, fromEditor.value), outName.value);
          var toPort := Registry.Lookup(PortsOf(regs.value, toEditor.value), inName.value);
          if fromPort.None? || toPort.None? then None
          else Some(Resolution(fromEditor.value, toEditor.value, Ends(fromPort.value, toPort.value)))
  }

  /** An empty endpoint attribute can never resolve, whichever getter reads it. */
  lemma EmptyNameNeverResolves(a: Attrs, regs: Option<Registries>, force: bool)
    requires Some("") in {a.from, a.out, a.to, a.inp}
    ensures Resolve(a, regs, force) == None
  {
  }

  /** Where a listener registered by `refreshConnection` is attached. */
  datatype Source = PortSource(port: PortId) | EditorSource(editor: EditorId) | PathSource

  /** Which notification it listens to. */
  datatype Kind = Position | Offline | Color | Rename | MouseDown | DoubleClick

  datatype Sub = Sub(source: Source, kind: Kind)

  /** The listeners attached under one abort controller when a link connects. */
  function Subscriptions(r: Resolution): (subs: set<Sub>)
    // every endpoint port and editor is watched for renames, so a rename unbinds the link
    ensures Sub(PortSource(r.ends.out), Rename) in subs && Sub(PortSource(r.ends.inp), Rename) in subs
    ensures Sub(EditorSource(r.fromEditor), Rename) in subs && Sub(EditorSource(r.toEditor), Rename) in subs
    // both ports are watched for going offline
    ensures Sub(PortSource(r.ends.out), Offline) in subs && Sub(PortSource(r.ends.inp), Offline) in subs
    // nothing but the two endpoints, their editors and the link's own path is watched
    ensures forall s :: s in subs && s.source.PortSource? ==> s.source.port in {r.ends.out, r.ends.inp}
    ensures forall s :: s in subs && s.source.EditorSource? ==> s.source.editor in {r.fromEditor, r.toEditor}
  {
    var p, q := PortSource(r.ends.out), PortSource(r.ends.inp);
    { Sub(p, Position), Sub(q, Position), Sub(p, Offline), Sub(q, Offline),
      Sub(p, Color), Sub(q, Color), Sub(p, Rename), Sub(q, Rename),
      Sub(EditorSource(r.fromEditor), Rename), Sub(EditorSource(r.toEditor), Rename),
      Sub(PathSource, MouseDown), Sub(PathSource, DoubleClick) }
  }

  /** The link's private state: its port references, the `connected` flag and the
      listeners currently attached under its abort controller. */
  datatype State = State(ends: Option<Ends>, connected: bool, subs: set<Sub>)

  const Initial: State := State(None, false, {})

  /** A connect or disconnect notification: one bubbling from the link itself,
      carrying the port pair the graph reads from the link at dispatch time, and one
      non-bubbling on each endpoint port. */
  datatype Notice =
    | LinkNotice(connect: bool, ends: Option<Ends>)
    | PortNotice(connect: bool, port: PortId)

  /** A new state and the notifications emitted on the way to it, in order. */
  datatype Step = Step(state: State, log: seq<Notice>)

  /** The notifications on both endpoint ports, if there are any. */
  function PortNotices(connect: bool, ends: Option<Ends>): seq<Notice> {
    if ends.Some? then [PortNotice(connect, ends.value.out), PortNotice(connect, ends.value.inp)] else []
  }

  /** `notifyConnection`.  A connect request is only made with both ports at hand
      (the source casts them to non-null). */
  function Notify(s: State, connected: bool, ends: Option<Ends>): (r: Step)
    requires connected ==> ends.Some?
    // the guard: asking for the current state emits nothing and changes nothing
    ensures s.connected == connected ==> r == Step(s, [])
    // otherwise only the flag changes, to the requested state
    ensures s.connected != connected ==> r.state == s.(connected := connected)
    // one link-level notification of the new state goes first, then one per endpoint port
    ensures s.connected != connected ==> |r.log| == (if ends.Some? then 3 else 1) && r.log[0] == LinkNotice(connected, ends)
    ensures forall i :: 1 <= i < |r.log| ==> r.log[i].PortNotice? && r.log[i].connect == connected
    ensures s.connected != connected && ends.Some? ==> r.log[1].port == ends.value.out && r.log[2].port == ends.value.inp
  {
    if s.connected == connected then Step(s, [])
    else Step(s.(connected := connected), [LinkNotice(connected, ends)] + PortNotices(connected, ends))
  }

  /** `refreshConnection`: always pass through "disconnected", revoke every listener,
      then resolve afresh and, on success, bind the ports, attach the listeners and
      connect. */
  function Refresh(s: State, a: Attrs, regs: Option<Registries>, force: bool): (r: Step)
    // the flag says exactly whether both port references are bound
    ensures r.state.connected <==> r.state.ends.Some?
    // the bound ports are those resolution finds, with that resolution's listeners only
    ensures forall res :: Resolve(a, regs, force) == Some(res) ==>
              r.state.ends == Some(res.ends) && r.state.subs == Subscriptions(res)
    // otherwise, and in particular when forced or outside a graph, both references end null
    // and no listener survives
    ensures Resolve(a, regs, force).None? ==> r.state == Initial
    ensures force || regs.None? ==> r.state == Initial
    // the link-level notifications: a disconnect if it was connected, then a connect if it resolved
    ensures Signals(r.log) == (if s.connected then [false] else []) + (if r.state.connected then [true] else [])
  {
    var d := Notify(s, false, s.ends);
    NotifySignals(s, false, s.ends);
    var res := Resolve(a, regs, force);
    if res.None? then
      Step(Initial, d.log)
    else
      var bound := State(Some(res.value.ends), false, Subscriptions(res.value));
      var c := Notify(bound, true, bound.ends);
      NotifySignals(bound, true, bound.ends);
      SignalsAppend(d.log, c.log);
      Step(c.state, d.log + c.log)
  }

  /** The notifications of one refresh: a disconnect flip if the link was connected,
      then a connect flip if it resolves. */
  lemma RefreshLog(s: State, a: Attrs, regs: Option<Registries>, force: bool)
    ensures Notify(s, false, s.ends).log ==
            if s.connected then [LinkNotice(false, s.ends)] + PortNotices(false, s.ends) else []
    ensures Resolve(a, regs, force).None? ==> Refresh(s, a, regs, force) == Step(Initial, Notify(s, false, s.ends).log)
    ensures forall res :: Resolve(a, regs, force) == Some(res) ==>
              Refresh(s, a, regs, force) ==
                Step(State(Some(res.ends), true, Subscriptions(res)),
                     Notify(s, false, s.ends).log + ([LinkNotice(true, Some(res.ends))] + PortNotices(true, Some(res.ends))))
  {
  }

  /** The connect flags of the link-level notifications in a log, in order. */
  function Signals(log: seq<Notice>): seq<bool> {
    if log == [] then []
    else (if log[0].LinkNotice? then [log[0].connect] else []) + Signals(log[1..])
  }

  lemma {:induction false} SignalsAppend(a: seq<Notice>, b: seq<Notice>)
    ensures Signals(a + b) == Signals(a) + Signals(b)
  {
    if a == [] {
      assert a + b == b;
    } else {
      assert (a + b)[1..] == a[1..] + b;
      SignalsAppend(a[1..], b);
    }
  }

  /** `notifyConnection` emits one link-level notification exactly when the flag flips. */
  lemma NotifySignals(s: State, connected: bool, ends: Option<Ends>)
    requires connected ==> ends.Some?
    ensures Signals(Notify(s, connected, ends).log) == if s.connected != connected then [connected] else []
  {
    if s.connected != connected {
      var ports := PortNotices(connected, ends);
      assert Signals(ports) == [] by {
        if ends.Some? {
          var tail := [PortNotice(connected, ends.value.inp)];
          assert ports[1..] == tail;
          assert tail[1..] == [];
          assert Signals(tail) == [];
        }
      }
      assert ([LinkNotice(connected, ends)] + ports)[1..] == ports;
    }
  }

  /** Connect and disconnect strictly alternate, beginning with a connect, and the
      link is connected exactly when an odd number of them has been emitted. */
  ghost predicate Alternating(sig: seq<bool>, connected: bool) {
    && (forall i :: 0 <= i < |sig| ==> sig[i] == (i % 2 == 0))
    && (connected <==> |sig| % 2 == 1)
  }

  /** One refresh extends an alternating history to an alternating history. */
  lemma RefreshAlternates(sig: seq<bool>, s: State, a: Attrs, regs: Option<Registries>, force: bool)
    requires Alternating(sig, s.connected)
    ensures Alternating(sig + Signals(Refresh(s, a, regs, force).log), Refresh(s, a, regs, force).state.connected)
  {
  }

  /** The inputs of one call of `refreshConnection`. */
  datatype Trigger = Trigger(attrs: Attrs, regs: Option<Registries>, force: bool)

  /** A sequence of refreshes, with the concatenation of their notifications. */
  function Run(s: State, ts: seq<Trigger>): Step
    decreases |ts|
  {
    if ts == [] then Step(s, [])
    else
      var first := Refresh(s, ts[0].attrs, ts[0].regs, ts[0].force);
      var rest := Run(first.state, ts[1..]);
      Step(rest.state, first.log + rest.log)
  }

  /** Over any history of refreshes, whatever the names, registries and forcing, the
      connect and disconnect notifications of a link alternate. */
  lemma {:induction false} RunAlternates(sig: seq<bool>, s: State, ts: seq<Trigger>)
    requires Alternating(sig, s.connected)
    ensures Alternating(sig + Signals(Run(s, ts).log), Run(s, ts).state.connected)
    decreases |ts|
  {
    if ts != [] {
      var first := Refresh(s, ts[0].attrs, ts[0].regs, ts[0].force);
      RefreshAlternates(sig, s, ts[0].attrs, ts[0].regs, ts[0].force);
      var sig' := sig + Signals(first.log);
      RunAlternates(sig', first.state, ts[1..]);
      var rest := Run(first.state, ts[1..]);
      SignalsAppend(first.log, rest.log);
      assert sig + Signals(first.log + rest.log) == sig' + Signals(rest.log);
    }
  }

  /** A new link's notifications alternate starting with a connect. */
  lemma FreshLinkAlternates(ts: seq<Trigger>)
    ensures Alternating(Signals(Run(Initial, ts).log), Run(Initial, ts).state.connected)
  {
    RunAlternates([], Initial, ts);
    assert [] + Signals(Run(Initial, ts).log) == Signals(Run(Initial, ts).log);
  }

  /** Refreshing again with nothing changed reaches the same state; a bound link
      re-emits a disconnect followed by a connect, an unbound one emits nothing. */
  lemma RefreshTwice(s: State, a: Attrs, regs: Option<Registries>, force: bool)
    ensures Refresh(Refresh(s, a, regs, force).state, a, regs, force).state == Refresh(s, a, regs, force).state
    ensures Signals(Refresh(Refresh(s, a, regs, force).state, a, regs, force).log) ==
            if Refresh(s, a, regs, force).state.connected then [false, true] else []
  {
  }
}

=== FILE: nodemap.dfy ===
/** The graph element (`NodeMapElement`) reduced to its bookkeeping: the editor
    registry, every editor's port registry, the links' private states and the two
    connection indices fed by the links' notifications. */
module NodeMap {
  import opened Handles
  import Registry
  import Link
  import opened Bookkeeping

  datatype Graph = Graph(
    editors: map<string, EditorId>,
    ports: map<EditorId, map<string, PortId>>,
    links: map<LinkId, Link.State>,
    books: map<PortId, PortBook>,
    index: Index)

  const Empty: Graph := Graph(map[], map[], map[], map[], map[])

  /** What a link inside this graph resolves against. */
  function RegistriesOf(g: Graph): Link.Registries {
    Link.Registries(g.editors, g.ports)
  }

  function PortRegistry(g: Graph, e: EditorId): map<string, PortId> {
    Link.PortsOf(RegistriesOf(g), e)
  }

  /** The graph's `add` handler for a mounting editor. */
  function EditorAdded(g: Graph, e: EditorId, name: Name): (r: Graph)
    ensures r.editors == Registry.Add(g.editors, name, e).bindings
    ensures r.ports == g.ports && r.links == g.links && r.books == g.books && r.index == g.index
  {
    g.(editors := Registry.Add(g.editors, name, e).bindings)
  }

  /** The graph's `remove` handler for an unmounting editor. */
  function EditorRemoved(g: Graph, e: EditorId, name: Name): (r: Graph)
    ensures r.editors == Registry.Remove(g.editors, name, e)
    ensures r.ports == g.ports && r.links == g.links && r.books == g.books && r.index == g.index
  {
    g.(editors := Registry.Remove(g.editors, name, e))
  }

  /** An editor's `name` attribute changing from `oldName` to `newName`. */
  function EditorRenamed(g: Graph, e: EditorId, oldName: Name, newName: Name): (r: Graph)
    ensures r.editors == Registry.NameChanged(g.editors, oldName, newName, e).bindings
    // an editor's port registry is keyed by the editor, not by its name
    ensures r.ports == g.ports && r.links == g.links && r.books == g.books && r.index == g.index
  {
    g.(editors := Registry.NameChanged(g.editors, oldName, newName, e).bindings)
  }

  /** A port's `online` notification, heard by its owning editor, if it has one. */
  function PortOnline(g: Graph, p: PortId, owner: Option<EditorId>, name: Name): (r: Graph)
    ensures owner.Some? ==> PortRegistry(r, owner.value) == Registry.Add(PortRegistry(g, owner.value), name, p).bindings
    // no other editor's registry changes
    ensures forall e: EditorId :: owner != Some(e) ==> PortRegistry(r, e) == PortRegistry(g, e)
    ensures r.editors == g.editors && r.links == g.links && r.books == g.books && r.index == g.index
  {
    if owner.None? then g
    else g.(ports := g.ports[owner.value := Registry.Add(PortRegistry(g, owner.value), name, p).bindings])
  }

  /** A port's `offline` notification, re-dispatched to its owning editor. */
  function PortOffline(g: Graph, p: PortId, owner: Option<EditorId>, name: Name): (r: Graph)
    ensures owner.Some? ==> PortRegistry(r, owner.value) == Registry.Remove(PortRegistry(g, owner.value), name, p)
    ensures forall e: EditorId :: owner != Some(e) ==> PortRegistry(r, e) == PortRegistry(g, e)
    ensures r.editors == g.editors && r.links == g.links && r.books == g.books && r.index == g.index
  {
    if owner.None? then g
    else g.(ports := g.ports[owner.value := Registry.Remove(PortRegistry(g, owner.value), name, p)])
  }

  /** A port's `name` attribute changing, heard by its owning editor. */
  function PortRenamed(g: Graph, p: PortId, owner: Option<EditorId>, oldName: Name, newName: Name): (r: Graph)
    ensures owner.Some? ==> PortRegistry(r, owner.value) == Registry.NameChanged(PortRegistry(g, owner.value), oldName, newName, p).bindings
    ensures forall e: EditorId :: owner != Some(e) ==> PortRegistry(r, e) == PortRegistry(g, e)
    ensures r.editors == g.editors && r.links == g.links && r.books == g.books && r.index == g.index
  {
    if owner.None? then g
    else g.(ports := g.ports[owner.value := Registry.NameChanged(PortRegistry(g, owner.value), oldName, newName, p).bindings])
  }

  /** A link's private state; a link the graph has not seen yet is in the initial state. */
  function LinkOf(g: Graph, l: LinkId): Link.State {
    if l in g.links then g.links[l] else Link.Initial
  }

  /** One notification from link `l` reaching its listener: link-level ones reach the
      graph's index, port-level ones the port's own book. */
  function DeliverOne(g: Graph, l: LinkId, n: Link.Notice): Graph {
    match n
    case LinkNotice(connect, ends) =>
      if ends.None? then g
      else if connect then g.(index := IndexConnect(g.index, ends.value.out, ends.value.inp))
      else g.(index := IndexDisconnect(g.index, ends.value.out, ends.value.inp))
    case PortNotice(connect, p) =>
      var b := BookOf(g.books, p);
      g.(books := g.books[p := Touch(b, l, connect)])
  }

  /** The notifications of one link delivered in order. */
  function Deliver(g: Graph, l: LinkId, log: seq<Link.Notice>): (r: Graph)
    ensures r.editors == g.editors && r.ports == g.ports && r.links == g.links
    decreases |log|
  {
    if log == [] then g else Deliver(DeliverOne(g, l, log[0]), l, log[1..])
  }

  lemma {:induction false} DeliverAppend(g: Graph, l: LinkId, a: seq<Link.Notice>, b: seq<Link.Notice>)
    ensures Deliver(g, l, a + b) == Deliver(Deliver(g, l, a), l, b)
    decreases |a|
  {
    if a == [] {
      assert a + b == b;
    } else {
      assert (a + b)[1..] == a[1..] + b;
      DeliverAppend(DeliverOne(g, l, a[0]), l, a[1..], b);
    }
  }

  lemma DeliverSingle(g: Graph, l: LinkId, n: Link.Notice)
    ensures Deliver(g, l, [n]) == DeliverOne(g, l, n)
  {
    assert [n][1..] == [];
  }

  /** A port's book after its listener ran once for link `l`. */
  function Touch(b: PortBook, l: LinkId, connect: bool): PortBook {
    if connect then PortConnect(b, l) else PortDisconnect(b, l)
  }

  lemma TouchTwice(b: PortBook, l: LinkId, connect: bool)
    ensures Touch(Touch(b, l, connect), l, connect) == Touch(b, l, connect)
  {
    if connect {
      assert b.links + {l} + {l} == b.links + {l};
    } else {
      assert b.links - {l} - {l} == b.links - {l};
    }
  }

  /** Two port notices for the two ends of a link update each endpoint's book once. */
  lemma BooksFlip(books: map<PortId, PortBook>, l: LinkId, connect: bool, e: Link.Ends)
    ensures var m1 := books[e.out := Touch(BookOf(books, e.out), l, connect)];
            var m2 := m1[e.inp := Touch(BookOf(m1, e.inp), l, connect)];
            forall p :: BookOf(m2, p) == if p == e.out || p == e.inp then Touch(BookOf(books, p), l, connect) else BookOf(books, p)
  {
    var m1 := books[e.out := Touch(BookOf(books, e.out), l, connect)];
    var m2 := m1[e.inp := Touch(BookOf(m1, e.inp), l, connect)];
    forall p ensures BookOf(m2, p) == if p == e.out || p == e.inp then Touch(BookOf(books, p), l, connect) else BookOf(books, p) {
      if p == e.inp && p == e.out {
        TouchTwice(BookOf(books, p), l, connect);
      }
    }
  }

  /** The effect of the notifications of one flip of the connected flag: the index
      gains or loses the pair, and each endpoint port's book gains or loses the link
      once (a link whose two ends are one port touches it once). */
  lemma DeliverFlip(g: Graph, l: LinkId, connect: bool, e: Link.Ends)
    ensures var r := Deliver(g, l, [Link.LinkNotice(connect, Some(e))] + Link.PortNotices(connect, Some(e)));
            && r.index == (if connect then IndexConnect(g.index, e.out, e.inp) else IndexDisconnect(g.index, e.out, e.inp))
            && forall p :: BookOf(r.books, p) ==
                 if p == e.out || p == e.inp then Touch(BookOf(g.books, p), l, connect) else BookOf(g.books, p)
  {
    var n0 := Link.LinkNotice(connect, Some(e));
    var n1 := Link.PortNotice(connect, e.out);
    var n2 := Link.PortNotice(connect, e.inp);
    assert Link.PortNotices(connect, Some(e)) == [n1] + [n2];
    DeliverAppend(g, l, [n0], [n1] + [n2]);
    DeliverSingle(g, l, n0);
    var g1 := DeliverOne(g, l, n0);
    DeliverAppend(g1, l, [n1], [n2]);
    DeliverSingle(g1, l, n1);
    var g2 := DeliverOne(g1, l, n1);
    DeliverSingle(g2, l, n2);
    BooksFlip(g.books, l, connect, e);
  }

  /** `refreshConnection` of link `l`, whose attributes are `a`; `mounted` says whether
      the link sits inside this graph. */
  function RefreshLink(g: Graph, l: LinkId, a: Link.Attrs, mounted: bool, force: bool): (r: Graph)
    ensures r.editors == g.editors && r.ports == g.ports
    ensures l in r.links
    ensures forall k :: k in g.links && k != l ==> k in r.links && r.links[k] == g.links[k]
    ensures r.links.Keys == g.links.Keys + {l}
    // the link ends connected to the ports resolution finds, or reset when it finds none
    ensures forall res :: Link.Resolve(a, if mounted then Some(RegistriesOf(g)) else None, force) == Some(res) ==>
              r.links[l].connected && r.links[l].ends == Some(res.ends)
    ensures Link.Resolve(a, if mounted then Some(RegistriesOf(g)) else None, force).None? ==> r.links[l] == Link.Initial
  {
    var st := Link.Refresh(LinkOf(g, l), a, if mounted then Some(RegistriesOf(g)) else None, force);
    Deliver(g, l, st.log).(links := g.links[l := st.state])
  }

  /** The port pairs of the currently connected links. */
  ghost function Bound(links: map<LinkId, Link.State>): map<LinkId, Link.Ends> {
    map l | l in links && links[l].ends.Some? :: links[l].ends.value
  }

  /** Every link's connected flag says whether it holds both port references. */
  ghost predicate FlagsMatch(links: map<LinkId, Link.State>) {
    forall l :: l in links ==> (links[l].connected <==> links[l].ends.Some?)
  }

  lemma BoundUpdate(links: map<LinkId, Link.State>, l: LinkId, s: Link.State)
    ensures Bound(links[l := s]) == if s.ends.Some? then (Bound(links) - {l})[l := s.ends.value] else Bound(links) - {l}
  {
  }

  /** The disconnect half of a refresh leaves the books tracking the other connected links. */
  lemma DisconnectPhaseBooks(g: Graph, l: LinkId)
    requires FlagsMatch(g.links) && BooksTrack(g.books, Bound(g.links))
    ensures var s := LinkOf(g, l);
            BooksTrack(Deliver(g, l, Link.Notify(s, false, s.ends).log).books, Bound(g.links) - {l})
  {
    var s := LinkOf(g, l);
    var b := Bound(g.links);
    Link.RefreshLog(s, Link.Attrs(None, None, None, None), None, true);
    if s.connected {
      DeliverFlip(g, l, false, s.ends.value);
      BooksAfterDisconnect(g.books, Deliver(g, l, Link.Notify(s, false, s.ends).log).books, b, l);
    } else {
      assert l !in b;
      assert b - {l} == b;
    }
  }

  /** The connect half of a refresh adds the link to the books of its two new ports. */
  lemma ConnectPhaseBooks(g: Graph, l: LinkId, bound: map<LinkId, Link.Ends>, e: Link.Ends)
    requires BooksTrack(g.books, bound) && l !in bound
    ensures BooksTrack(Deliver(g, l, [Link.LinkNotice(true, Some(e))] + Link.PortNotices(true, Some(e))).books, bound[l := e])
  {
    DeliverFlip(g, l, true, e);
    BooksAfterConnect(g.books, Deliver(g, l, [Link.LinkNotice(true, Some(e))] + Link.PortNotices(true, Some(e))).books, bound, l, e);
  }

  /** Refreshing a link keeps every connected flag equal to "both ports bound". */
  lemma RefreshKeepsFlags(g: Graph, l: LinkId, a: Link.Attrs, mounted: bool, force: bool)
    requires FlagsMatch(g.links)
    ensures FlagsMatch(RefreshLink(g, l, a, mounted, force).links)
  {
  }

  /** The per-port books never drift from the set of connected links: after any
      refresh of any link, every port's link set is exactly the connected links that
      end at it, and its `connections` attribute shows their number. */
  lemma RefreshKeepsBooks(g: Graph, l: LinkId, a: Link.Attrs, mounted: bool, force: bool)
    requires FlagsMatch(g.links) && BooksTrack(g.books, Bound(g.links))
    ensures BooksTrack(RefreshLink(g, l, a, mounted, force).books, Bound(RefreshLink(g, l, a, mounted, force).links))
  {
    var s := LinkOf(g, l);
    var regs := if mounted then Some(RegistriesOf(g)) else None;
    var st := Link.Refresh(s, a, regs, force);
    var b := Bound(g.links);
    var d := Link.Notify(s, false, s.ends).log;
    var g1 := Deliver(g, l, d);
    DisconnectPhaseBooks(g, l);
    Link.RefreshLog(s, a, regs, force);
    var res := Link.Resolve(a, regs, force);
    if res.Some? {
      var c := [Link.LinkNotice(true, Some(res.value.ends))] + Link.PortNotices(true, Some(res.value.ends));
      assert st.log == d + c;
      DeliverAppend(g, l, d, c);
      ConnectPhaseBooks(g1, l, b - {l}, res.value.ends);
    } else {
      assert st.log == d;
    }
    BoundUpdate(g.links, l, st.state);
  }

  /** The graph index stays exactly the out-port to in-ports relation of the connected
      links, as long as no two connected links join the same two ports in the same
      direction (see `Bookkeeping.DuplicateLinksDrift` for what happens otherwise). */
  lemma RefreshKeepsIndex(g: Graph, l: LinkId, a: Link.Attrs, mounted: bool, force: bool)
    requires FlagsMatch(g.links) && Tracks(g.index, Bound(g.links)) && DistinctPairs(Bound(g.links))
    ensures Tracks(RefreshLink(g, l, a, mounted, force).index, Bound(RefreshLink(g, l, a, mounted, force).links))
  {
    var s := LinkOf(g, l);
    var regs := if mounted then Some(RegistriesOf(g)) else None;
    var st := Link.Refresh(s, a, regs, force);
    var b := Bound(g.links);
    var d := Link.Notify(s, false, s.ends);
    var g1 := Deliver(g, l, d.log);
    assert Tracks(g1.index, b - {l}) by {
      if s.connected {
        DeliverFlip(g, l, false, s.ends.value);
        IndexDisconnectTracks(g.index, b, l);
      } else {
        assert l !in b;
        assert b - {l} == b;
      }
    }
    var res := Link.Resolve(a, regs, force);
    if res.Some? {
      var bound := Link.State(Some(res.value.ends), false, Link.Subscriptions(res.value));
      var c := Link.Notify(bound, true, bound.ends);
      DeliverAppend(g, l, d.log, c.log);
      DeliverFlip(g1, l, true, res.value.ends);
      IndexConnectTracks(g1.index, b - {l}, l, res.value.ends);
    }
    BoundUpdate(g.links, l, st.state);
  }

  /** The empty graph satisfies both bookkeeping invariants. */
  lemma EmptyIsConsistent()
    ensures FlagsMatch(Empty.links) && BooksTrack(Empty.books, Bound(Empty.links))
    ensures Tracks(Empty.index, Bound(Empty.links)) && DistinctPairs(Bound(Empty.links))
  {
    assert Bound(Empty.links) == map[];
    forall p ensures BookOf(Empty.books, p).links == LinksAt(map[], p) {
    }
    forall o ensures Get(Empty.index, o) == InsOf(map[], o) {
    }
  }
}

=== FILE: registry.dfy ===
/** The name registry shared by the graph (editor name -> editor) and by every
    editor (port name -> port).  Both apply the same three rules: the first
    registrant of a name wins, an unregister only removes a binding that still
    points at the leaving handle, and a rename is an unregister of the old name
    followed by a registration of the new one. */
module Registry {
  import opened Handles

  /** The bindings after an update, and whether the duplicate-name warning was printed. */
  datatype Update<H> = Update(bindings: map<string, H>, warned: bool)

  /** `registry.get(name) ?? null`. */
  function Lookup<H>(reg: map<string, H>, name: string): Option<H> {
    if name in reg then Some(reg[name]) else None
  }

  /** Registration of `h` under its current `name` (the `add` / `online` handlers). */
  function Add<H(==)>(reg: map<string, H>, name: Name, h: H): (u: Update<H>)
    // an existing binding is never overwritten or dropped
    ensures forall k :: k in reg ==> k in u.bindings && u.bindings[k] == reg[k]
    // the only key that can appear is the handle's own name, and only for this handle
    ensures forall k :: k in u.bindings && k !in reg ==> Named(name) && k == name.value && u.bindings[k] == h
    // a named handle leaves its name bound, to itself unless another handle had it first
    ensures Named(name) ==> name.value in u.bindings
    ensures u.warned <==> Named(name) && u.bindings[name.value] != h
  {
    if Named(name) then
      if name.value in reg && reg[name.value] != h then
        Update(reg, true)
      else
        Update(reg[name.value := h], false)
    else
      Update(reg, false)
  }

  /** Unregistration of `h` under its current `name` (the `remove` / `offline` handlers). */
  function Remove<H(==)>(reg: map<string, H>, name: Name, h: H): (r: map<string, H>)
    // nothing is added and no surviving binding changes
    ensures forall k :: k in r ==> k in reg && r[k] == reg[k]
    // exactly the binding of `name` to `h` disappears, if there is one
    ensures forall k :: k in reg && k !in r <==> k in reg && Named(name) && k == name.value && reg[k] == h
  {
    if Named(name) && name.value in reg && reg[name.value] == h then
      reg - {name.value}
    else
      reg
  }

  /** The `name` handler: `h` was called `oldName` and is now called `newName`. */
  function Rename<H(==)>(reg: map<string, H>, oldName: Name, newName: Name, h: H): (u: Update<H>)
    // keys other than the two names keep their bindings
    ensures forall k :: (k in reg && !(Named(oldName) && k == oldName.value) && !(Named(newName) && k == newName.value)) ==>
                          k in u.bindings && u.bindings[k] == reg[k]
    ensures forall k :: k in u.bindings ==> k in reg || (Named(newName) && k == newName.value)
    // the old name stays bound only when it did not belong to `h`, or is also the new name
    ensures (Named(oldName) && oldName.value in reg && reg[oldName.value] == h && !(Named(newName) && newName.value == oldName.value)) ==>
              oldName.value !in u.bindings
    // an old name held by another handle survives with its binding
    ensures (Named(oldName) && oldName.value in reg && reg[oldName.value] != h) ==>
              oldName.value in u.bindings && u.bindings[oldName.value] == reg[oldName.value]
    // a new name that is free, or already `h`'s, ends bound to `h` without a warning
    ensures (Named(newName) && !(newName.value in reg && reg[newName.value] != h)) ==>
              newName.value in u.bindings && u.bindings[newName.value] == h && !u.warned
    // the new name ends bound to `h` unless another handle holds it, which then survives
    ensures Named(newName) ==> newName.value in u.bindings
    ensures (Named(newName) && newName.value in reg && reg[newName.value] != h) ==>
              u.warned && u.bindings[newName.value] == reg[newName.value]
    ensures u.warned <==> Named(newName) && u.bindings[newName.value] != h
  {
    Add(Remove(reg, oldName, h), newName, h)
  }

  /** A name attribute change: the `name` event is only dispatched when the value differs. */
  function NameChanged<H(==)>(reg: map<string, H>, oldName: Name, newName: Name, h: H): (u: Update<H>)
    ensures oldName == newName ==> u == Update(reg, false)
    ensures oldName != newName ==> u == Rename(reg, oldName, newName, h)
  {
    if oldName == newName then Update(reg, false) else Rename(reg, oldName, newName, h)
  }

  /** Every stored binding is true of the live elements: the handle a key maps to
      currently bears that key, a non-empty string, as its name.  `nameOf` gives each
      handle's name attribute. */
  ghost predicate Truthful<H>(reg: map<string, H>, nameOf: map<H, Name>) {
    forall k :: k in reg ==> k != "" && reg[k] in nameOf && nameOf[reg[k]] == Some(k)
  }

  /** A truthful registry binds each handle under at most one name. */
  lemma TruthfulIsInjective<H>(reg: map<string, H>, nameOf: map<H, Name>, k1: string, k2: string)
    requires Truthful(reg, nameOf)
    requires k1 in reg && k2 in reg && reg[k1] == reg[k2]
    ensures k1 == k2
  {
    assert nameOf[reg[k1]] == Some(k1);
    assert nameOf[reg[k2]] == Some(k2);
  }

  /** Registering a handle under its own name keeps the registry truthful. */
  lemma AddKeepsTruthful<H>(reg: map<string, H>, nameOf: map<H, Name>, h: H)
    requires Truthful(reg, nameOf) && h in nameOf
    ensures Truthful(Add(reg, nameOf[h], h).bindings, nameOf)
  {
  }

  /** Unregistering a handle under its own name keeps the registry truthful and
      leaves the handle unreachable by any name. */
  lemma RemoveKeepsTruthful<H>(reg: map<string, H>, nameOf: map<H, Name>, h: H)
    requires Truthful(reg, nameOf) && h in nameOf
    ensures Truthful(Remove(reg, nameOf[h], h), nameOf)
    ensures h !in Remove(reg, nameOf[h], h).Values
  {
  }

  /** A rename reported with the handle's previous name keeps the registry truthful
      with respect to the handle's new name.  When the new name is held by another
      handle, the renamed handle is left unreachable by any name. */
  lemma RenameKeepsTruthful<H>(reg: map<string, H>, nameOf: map<H, Name>, h: H, newName: Name)
    requires Truthful(reg, nameOf) && h in nameOf
    ensures Truthful(Rename(reg, nameOf[h], newName, h).bindings, nameOf[h := newName])
    ensures Rename(reg, nameOf[h], newName, h).warned ==> h !in Rename(reg, nameOf[h], newName, h).bindings.Values
  {
    var mid := Remove(reg, nameOf[h], h);
    RemoveKeepsTruthful(reg, nameOf, h);
    var u := Add(mid, newName, h);
    var names' := nameOf[h := newName];
    forall k | k in u.bindings
      ensures u.bindings[k] in names' && names'[u.bindings[k]] == Some(k)
    {
      if k in mid {
        assert u.bindings[k] == mid[k] != h;
      }
    }
  }

  /** Re-registering a handle that is already registered (or already refused) changes nothing. */
  lemma AddIdempotent<H>(reg: map<string, H>, name: Name, h: H)
    ensures Add(Add(reg, name, h).bindings, name, h) == Add(reg, name, h)
  {
  }

  /** Registration followed by unregistration of a fresh name restores the registry. */
  lemma RemoveUndoesAdd<H>(reg: map<string, H>, name: Name, h: H)
    requires Named(name) ==> name.value !in reg
    ensures Remove(Add(reg, name, h).bindings, name, h) == reg
  {
  }

  /** A stale unregistration (the name now belongs to someone else, or to no one) is a no-op. */
  lemma StaleRemoveIsNoop<H>(reg: map<string, H>, name: Name, h: H)
    requires Named(name) ==> Lookup(reg, name.value) != Some(h)
    ensures Remove(reg, name, h) == reg
  {
  }

  /** Two distinct handles registered under one name: the first stays resolvable by it,
      and the refused second one can still be registered under another free name. */
  lemma FirstRegistrantWins<H>(reg: map<string, H>, n: string, n2: string, h1: H, h2: H)
    requires n != "" && n2 != "" && n != n2 && h1 != h2
    requires n !in reg && n2 !in reg
    ensures var u1 := Add(reg, Some(n), h1);
            var u2 := Add(u1.bindings, Some(n), h2);
            var u3 := Add(u2.bindings, Some(n2), h2);
            && u2.warned && u2.bindings == u1.bindings
            && Lookup(u3.bindings, n) == Some(h1)
            && Lookup(u3.bindings, n2) == Some(h2)
  {
  }
}

=== FILE: scenario.dfy ===
/** A worked history through the whole model: two editors and two ports register, a
    drag from the output port onto the input port declares a link, the link resolves
    and is counted by both indices, a repeated drag is refused, and the input port
    going offline makes the link remove itself, which forces a disconnect. */
module Scenario {
  import opened Handles
  import opened Viewport
  import Link
  import Bookkeeping
  import NodeMap
  import DragConnect

  const P1: DragConnect.PortView := DragConnect.PortView(1, true, Some("p1"), Some(DragConnect.EditorView(1, Some("A"))), Point(0.0, 0.0))
  const P2: DragConnect.PortView := DragConnect.PortView(2, false, Some("p2"), Some(DragConnect.EditorView(2, Some("B"))), Point(100.0, 0.0))
  const AB: Link.Attrs := Link.Attrs(Some("A"), Some("p1"), Some("B"), Some("p2"))

  /** Editor `A` (id 1) owns output port `p1` (id 1), editor `B` (id 2) owns input port `p2` (id 2). */
  function Mounted(): (g: NodeMap.Graph)
    ensures g.editors == map["A" := 1, "B" := 2]
    ensures NodeMap.PortRegistry(g, 1) == map["p1" := 1] && NodeMap.PortRegistry(g, 2) == map["p2" := 2]
    ensures g.links == map[] && g.books == map[] && g.index == map[]
  {
    var g1 := NodeMap.EditorAdded(NodeMap.Empty, 1, Some("A"));
    var g2 := NodeMap.EditorAdded(g1, 2, Some("B"));
    var g3 := NodeMap.PortOnline(g2, 1, Some(1), Some("p1"));
    NodeMap.PortOnline(g3, 2, Some(2), Some("p2"))
  }

  /** Press on `p1`, move over `p2`, release the same pointer. */
  function DragP1ToP2(index: Bookkeeping.Index): DragConnect.Outcome {
    var g := DragConnect.Start(P1, 0, 5).value;
    var moved := DragConnect.Move(g, Some(P2), Viewport.Initial, Point(100.0, 0.0));
    DragConnect.Release(moved, 5, index)
  }

  /** The graph once the dragged link (id 9) has connected. */
  function Connected(): NodeMap.Graph {
    NodeMap.RefreshLink(Mounted(), 9, AB, true, false)
  }

  /** The drag declares `from=A out=p1 to=B in=p2`; the link (id 9) resolves to ports 1
      and 2, both port books and the graph index record it, and a repeated drag is
      refused while it exists. */
  lemma DragConnectEndToEnd()
    ensures DragP1ToP2(Mounted().index) == DragConnect.Ended(Some(AB))
    ensures var g := Connected();
            && g.links[9] == Link.State(Some(Link.Ends(1, 2)), true, Link.Subscriptions(Link.Resolution(1, 2, Link.Ends(1, 2))))
            && g.index == map[1 := {2}]
            && Bookkeeping.BookOf(g.books, 1) == Bookkeeping.PortBook({9}, Some(1))
            && Bookkeeping.BookOf(g.books, 2) == Bookkeeping.PortBook({9}, Some(1))
            && DragP1ToP2(g.index) == DragConnect.Ended(None)
  {
    var g0 := Mounted();
    var res := Link.Resolution(1, 2, Link.Ends(1, 2));
    assert Link.Binds(NodeMap.RegistriesOf(g0), AB, res);
    Link.RefreshLog(Link.Initial, AB, Some(NodeMap.RegistriesOf(g0)), false);
    NodeMap.DeliverFlip(g0, 9, true, Link.Ends(1, 2));
    assert [] + ([Link.LinkNotice(true, Some(Link.Ends(1, 2)))] + Link.PortNotices(true, Some(Link.Ends(1, 2)))) ==
           [Link.LinkNotice(true, Some(Link.Ends(1, 2)))] + Link.PortNotices(true, Some(Link.Ends(1, 2)));
  }

  /** `p2` going offline: the link's listener on it removes the link element first, and
      its `disconnectedCallback` forces a disconnect while the graph is still set, which
      empties both indices; then the owning editor unregisters the port. */
  lemma OfflineDisconnects()
    ensures var g := NodeMap.PortOffline(NodeMap.RefreshLink(Connected(), 9, AB, true, true), 2, Some(2), Some("p2"));
            && g.links[9] == Link.Initial
            && g.index == map[]
            && Bookkeeping.BookOf(g.books, 1) == Bookkeeping.EmptyBook
            && Bookkeeping.BookOf(g.books, 2) == Bookkeeping.EmptyBook
            && NodeMap.PortRegistry(g, 2) == map[]
  {
    DragConnectEndToEnd();
    var g1 := Connected();
    var conn := g1.links[9];
    Link.RefreshLog(conn, AB, Some(NodeMap.RegistriesOf(g1)), true);
    NodeMap.DeliverFlip(g1, 9, false, Link.Ends(1, 2));
    assert {9} - {9} == {};
    assert Mounted().ports == g1.ports;
  }
}

=== FILE: viewport.dfy ===
/** The pan/zoom transform of the graph's drawing surface (`NodeCanvas`), idealised
    over exact reals.  World coordinates are those of editors and port anchors; view
    coordinates are those of the rendered surface. */
module Viewport {

  const MinZoom: real := 0.2
  const MaxZoom: real := 1.0
  const ZoomRate: real := 0.085

  datatype Point = Point(x: real, y: real)

  /** `panX`/`panY` offset, `zoom` factor and the surface size last reported by the
      resize observer.  A fresh canvas has zero pan and size and zoom 1. */
  datatype Canvas = Canvas(panX: real, panY: real, zoom: real, width: real, height: real)

  const Initial: Canvas := Canvas(0.0, 0.0, 1.0, 0.0, 0.0)

  /** The invariant every operation keeps: the zoom lies in the configured range. */
  predicate Valid(c: Canvas) {
    MinZoom <= c.zoom <= MaxZoom
  }

  /** `Math.max(MIN_ZOOM, Math.min(MAX_ZOOM, zoom))`. */
  function ClampZoom(z: real): (r: real)
    ensures MinZoom <= r <= MaxZoom
    ensures MinZoom <= z <= MaxZoom ==> r == z
    ensures z < MinZoom ==> r == MinZoom
    ensures z > MaxZoom ==> r == MaxZoom
  {
    if z > MaxZoom then MaxZoom else if z < MinZoom then MinZoom else z
  }

  /** `setZoom`: the stored zoom is always in range, and an in-range request is a plain
      assignment; pan and size are untouched. */
  function SetZoom(c: Canvas, z: real): (r: Canvas)
    ensures Valid(r)
    ensures MinZoom <= z <= MaxZoom ==> r.zoom == z
    ensures r.zoom == ClampZoom(z)
    ensures r.panX == c.panX && r.panY == c.panY && r.width == c.width && r.height == c.height
  {
    c.(zoom := ClampZoom(z))
  }

  /** `setPan`. */
  function SetPan(c: Canvas, x: real, y: real): (r: Canvas)
    ensures r.panX == x && r.panY == y && r.zoom == c.zoom
    ensures r.width == c.width && r.height == c.height
    ensures Valid(c) ==> Valid(r)
  {
    c.(panX := x, panY := y)
  }

  /** `pan`: a relative `setPan`. */
  function Pan(c: Canvas, dx: real, dy: real): Canvas {
    SetPan(c, c.panX + dx, c.panY + dy)
  }

  /** `setSize`. */
  function SetSize(c: Canvas, width: real, height: real): (r: Canvas)
    ensures r.width == width && r.height == height
    ensures r.zoom == c.zoom && r.panX == c.panX && r.panY == c.panY
  {
    c.(width := width, height := height)
  }

  /** `viewToWorld`. */
  function ViewToWorld(c: Canvas, p: Point): Point
    requires c.zoom != 0.0
  {
    Point(p.x / c.zoom - c.panX, p.y / c.zoom - c.panY)
  }

  /** `worldToView`. */
  function WorldToView(c: Canvas, p: Point): Point {
    Point((p.x + c.panX) * c.zoom, (p.y + c.panY) * c.zoom)
  }

  /** The visible world extent written into the surface's `viewBox` by `updateTransform`. */
  function Extent(c: Canvas): Point
    requires c.zoom != 0.0
  {
    Point(c.width / c.zoom, c.height / c.zoom)
  }

  /** The two coordinate maps are mutual inverses for every non-zero zoom. */
  lemma ViewWorldRoundTrip(c: Canvas, p: Point)
    requires c.zoom != 0.0
    ensures ViewToWorld(c, WorldToView(c, p)) == p
    ensures WorldToView(c, ViewToWorld(c, p)) == p
  {
    var z := c.zoom;
    assert (p.x + c.panX) * z / z == p.x + c.panX;
    assert (p.y + c.panY) * z / z == p.y + c.panY;
    assert (p.x / z - c.panX + c.panX) * z == p.x;
    assert (p.y / z - c.panY + c.panY) * z == p.y;
  }

  /** Panning by `(dx, dy)` moves the world point under every view point by `-(dx, dy)`. */
  lemma PanShiftsWorld(c: Canvas, dx: real, dy: real, p: Point)
    requires c.zoom != 0.0
    ensures ViewToWorld(Pan(c, dx, dy), p) == Point(ViewToWorld(c, p).x - dx, ViewToWorld(c, p).y - dy)
  {
  }

  /** Pan by `-p/zoom`, set the zoom, pan by `p/zoom'`: the zoom step the wheel handler
      performs around the view position `p`, for any requested zoom.  The handler passes
      the event's client coordinates as `p`, without the surface's page offset. */
  function ZoomAbout(c: Canvas, p: Point, requested: real): (r: Canvas)
    requires Valid(c)
    ensures Valid(r)
    ensures MinZoom <= requested <= MaxZoom ==> r.zoom == requested
    ensures ViewToWorld(r, p) == ViewToWorld(c, p)
  {
    var c1 := Pan(c, -p.x / c.zoom, -p.y / c.zoom);
    var c2 := SetZoom(c1, requested);
    var c3 := Pan(c2, p.x / c2.zoom, p.y / c2.zoom);
    PanShiftsWorld(c, -p.x / c.zoom, -p.y / c.zoom, p);
    PanShiftsWorld(c2, p.x / c2.zoom, p.y / c2.zoom, p);
    c3
  }

  /** `Math.sign`. */
  function Sign(v: real): int {
    if v > 0.0 then 1 else if v < 0.0 then -1 else 0
  }

  /** The wheel handler.  `damping` stands for `Math.pow(zoom, 0.0001)`, which the model
      takes as given; the request is `zoom - sign(deltaY) * ZOOM_RATE * damping`.  A wheel
      event during a canvas drag is ignored. */
  function Wheel(c: Canvas, dragging: bool, p: Point, deltaY: real, damping: real): (r: Canvas)
    requires Valid(c)
    ensures Valid(r)
    ensures dragging ==> r == c
    // the world point at view position (clientX, clientY) does not move
    ensures ViewToWorld(r, p) == ViewToWorld(c, p)
    // scrolling down never zooms in, scrolling up never zooms out
    ensures damping >= 0.0 && deltaY > 0.0 ==> r.zoom <= c.zoom
    ensures damping >= 0.0 && deltaY < 0.0 ==> r.zoom >= c.zoom
    ensures deltaY == 0.0 ==> r.zoom == c.zoom
  {
    if dragging then c
    else ZoomAbout(c, p, c.zoom + -(Sign(deltaY) as real) * ZoomRate * damping)
  }

  /** With the zoom in range, the visible extent is between one and five times the
      rendered size. */
  lemma ExtentBounds(c: Canvas)
    requires Valid(c) && c.width >= 0.0 && c.height >= 0.0
    ensures c.width <= Extent(c).x <= 5.0 * c.width
    ensures c.height <= Extent(c).y <= 5.0 * c.height
  {
    DivBounds(c.width, c.zoom);
    DivBounds(c.height, c.zoom);
  }

  /** Dividing a size by an in-range zoom magnifies it at least once and at most five times. */
  lemma DivBounds(w: real, z: real)
    requires MinZoom <= z <= MaxZoom && w >= 0.0
    ensures w <= w / z <= 5.0 * w
  {
    var q := w / z;
    assert q * z == w;
    assert q >= 0.0;
    ScaleMonotone(q, MinZoom, z);
    ScaleMonotone(q, z, MaxZoom);
  }

  /** Scaling by a non-negative factor keeps the order. */
  lemma ScaleMonotone(q: real, a: real, b: real)
    requires q >= 0.0 && a <= b
    ensures q * a <= q * b
  {
    assert q * b - q * a == q * (b - a);
  }
}
